=== FILE: README.md ===
# Parking-garage consistency engine, in Dafny

This project models the consistency core of a parking-garage reservation
service. In the original program, that core is a set of MySQL stored
procedures and one trigger embedded in `project.py`, plus some decision
logic in the Python client. The database is one immutable value (`Schema.Db`).
It holds four relations, each with an auto-increment counter:

- **Floors**: the parking spaces. Each row has `spaceId`, `floorNum` and `parkedRegNum`; `None` is SQL NULL.
- **Bookings**: the active reservations.
- **Logs**: the completed parking sessions.
- **Users**: the accounts.

Every routine is a pure transition on that value, and each call is one atomic step:

- the `parkedRegNumUpdate` trigger (`Procedures.Gate`), applied by every update of Floors (`Procedures.UpdateFloors`);
- the stored procedures `insert_booking`, `drive_out` and `account_removal`;
- provisioning (`insert_floor_spaces`, `initialize_DB`);
- the client-side decisions: signup, driving in, guarded drive-out, reserving and cancelling.

`Session` strings the client requests together. Its cancellation request runs
the corrected cancellation (`Client.Cancel`; see "## Findings"), not the one the
client code performs. With that correction, it shows that the invariants
(`Schema.Valid`) hold in every state reachable from the provisioned database:

- one booking per registration;
- one booking per space;
- every occupied space shows a registration booked for that space;
- foreign keys resolve;
- primary keys are fresh;
- user names are distinct, and so are emails up to ASCII case.

With the cancellation as the client writes it, the invariants do not hold in
every reachable state. `Session.AsWrittenCancelBreaksReachable` runs a four-request
session from the provisioned database and reaches such a state. In it, the
written cancellation leaves an occupied space with no booking.

Timestamps are abstract integers (`now` is a parameter), and `TIMEDIFF` is subtraction.

Details of the code that the model follows literally:

- `insert_booking` checks that the space exists and that the floor exists as two independent tests. It never checks that the space lies on that floor; only the client does (project.py:361).
- `account_removal` tests whether any space shows the booked registration, but clears the booked space by its `spaceID`, not by registration match.
- The foreign key `Bookings.userID → Users` (project.py:97) is part of `insert_booking`'s guard, because a failing insert leaves the tables unchanged.

## Model

| member | source | states |
|---|---|---|
| Procedures.Gate | project.py:144-150 | the trigger keeps a non-NULL value only if it is a regNum booked for that space, otherwise writes NULL; a NULL value stays NULL; spaceID and floorNum are untouched |
| Procedures.UpdateFloors | project.py:144-150 | an update of Floors changes only Floors; unmatched rows are unchanged; each matched row ends with v if v is booked for it and NULL otherwise |
| Procedures.OccupancyWrite | project.py:301 | after writing v to space s, s shows v exactly when some booking for s has regNum v, else NULL; other spaces, Bookings, Logs, Users and every auto-increment counter are unchanged |
| Procedures.InsertBooking | project.py:127-134 | exactly one booking (next id, rNum, sID, uID, now) is appended iff rNum and sID are unbooked, sID exists, some space has floorNum fNum and the user exists; otherwise the state is unchanged |
| Procedures.DriveOut | project.py:160-176 | afterwards no space shows rNum and no booking has it; the clearing happens with or without a booking; a log (user, rNum, start, now, now - start) is appended iff a booking existed; other bookings and users are kept |
| Procedures.AccountRemoval | project.py:186-198 | afterwards no booking, log or user row of uID remains; other users' rows are kept; the booked space is nulled when its regNum was shown; a space changes only if it is the spaceID of the user's booking and that booking's regNum was shown |
| Provisioning.InsertSpacesFrom | project.py:51-54 | the loop over range(i, n) appends one empty space per iteration with consecutive ids on the given floor |
| Provisioning.InsertFloorSpaces | project.py:45-55 | appends n - 1 empty spaces (none when n <= 1) on floor f with consecutive ids; no other table changes |
| Provisioning.ProvisionFloorsFrom | project.py:216-217 | the floors loop appends five spaces per floor, floor by floor, with ids consecutive |
| Provisioning.InitializeDb | project.py:205-217 | 15 empty spaces, spaceID k on floor (k - 1) / 5 + 1, no bookings, logs or users |
| Provisioning.InitializeDbValid | project.py:48-49 | freshly provisioned spaces satisfy every invariant |
| Schema.ValidRegSelectsAtMostOne | project.py:169-170 | in a valid state the scalar subquery on Bookings by regNum returns at most one row |
| Preservation.UpdateFloorsPreservesValid | project.py:147-149 | any trigger-gated Floors update preserves every invariant |
| Preservation.OccupancyWritePreservesValid | project.py:301 | a client occupancy write preserves every invariant |
| Preservation.InsertBookingPreservesValid | project.py:129-131 | insert_booking preserves one-booking-per-regNum, one-booking-per-space and occupancy consistency |
| Preservation.DriveOutPreservesValid | project.py:165-175 | drive_out is callable in every valid state and preserves every invariant |
| Preservation.DriveOutKeepsKeys | project.py:172-174 | drive_out keeps booking uniqueness, foreign keys and fresh primary keys |
| Preservation.DriveOutKeepsOccupancy | project.py:165-174 | after drive_out every occupied space still shows a regNum booked for it |
| Preservation.AccountRemovalPreservesValid | project.py:188-197 | account_removal of a user with at most one booking preserves every invariant |
| Preservation.DriveOutTwice | project.py:165-175 | calling drive_out twice: the second call changes nothing, and exactly one log row is added when the regNum was booked |
| Preservation.AccountRemovalKeepsOthers | project.py:192-197 | every other user's bookings, logs and user row are unchanged by account_removal |
| Preservation.AccountRemovalWithoutHistory | project.py:188-197 | for a user with no bookings or logs, only the user row is deleted |
| Client.FirstClash | project.py:280-287 | the scan stops at the first user whose name matches or whose email matches ignoring ASCII case |
| Client.Signup | project.py:277-294 | an account is created iff no user has that name or that email up to ASCII case; otherwise nothing changes, the reported clash exists, and "name exists" is reported iff the first clashing row has the name |
| Client.SignupPreservesValid | project.py:277-294 | signup keeps names and case-folded emails distinct and every other invariant |
| Client.Park | project.py:299-307 | the new state is exactly the trigger-gated write of the registration to the chosen space, so only Floors changes; "parked" is reported iff some space then shows the registration, "removed" iff none does |
| Client.ParkOutcomeMeaning | project.py:301-307 | in a consistent state, success is reported iff the car is booked for the existing space it drove into, or was already parked elsewhere |
| Client.Leave | project.py:309-316 | drive_out runs iff some space shows the car, and then the state is exactly drive_out's result; afterwards no space shows the car; otherwise nothing changes, so a booked but unparked car keeps its booking |
| Client.LeaveTwice | project.py:309-316 | a second drive-out attempt finds the car not parked and changes nothing; a car that was not parked keeps its bookings and gets no log row |
| Client.Reserve | project.py:342-381 | "no such floor" iff no space has that floor; "not on floor" iff the floor exists but the space is not on it; neither changes the state; when the space is on the floor, the new state is exactly insert_booking's and the report is read from its Bookings |
| Client.ClassifyReservation | project.py:371-381 | the report read back from Bookings: "registration taken" iff no booking holds the space; "space taken" only with a booking of the space for another car or user; "reserved" only with a booking of the space for this car and user |
| Client.InsertedIsReserved | project.py:368-381 | an admissible insert is always reported as reserved |
| Client.ClassifyUnchanged | project.py:371-381 | when nothing was inserted: reserved iff that same booking exists; space taken only if another car or user holds it; regNum taken only if nobody holds the space |
| Client.ReserveOutcomeMeaning | project.py:342-381 | only "reserved" changes state, and then the state is exactly insert_booking's; it is reported iff the space is on the floor and the booking was inserted or already existed; the other reports name a real conflict |
| Client.CancelAsWritten | project.py:403-417 | as written: no reservation iff the user has no booking; refused iff the user's FIRST booking has its space showing its regNum; otherwise Bookings becomes exactly the original sequence without the user's rows, and nothing else changes |
| Client.CancelAsWrittenKeepsKeys | project.py:414 | the written cancellation keeps both booking uniqueness invariants, user distinctness, foreign keys and fresh keys; occupancy consistency is the only invariant it can break |
| Session.CancelAsWrittenOnTwoReservations | project.py:409-414 | in a valid state with two bookings of one user, the second parked, the written cancellation reports success, deletes both and leaves an occupied unbooked space, while the corrected one refuses |
| Client.Cancel | project.py:403-417 | refuses iff some booking of the user has its space showing its regNum; otherwise deletes exactly the user's bookings |
| Client.CancelPreservesValid | project.py:411-417 | cancellation preserves every invariant |
| Client.CancelAsWrittenAgrees | project.py:403-414 | for a user with at most one booking, the written and the intended cancellation coincide |
| Session.Step | project.py:256-445 | each client request keeps every invariant, with cancellation done by the corrected Client.Cancel |
| Session.Run | project.py:332-446 | a sequence of requests keeps every invariant, with the corrected cancellation |
| Session.Reachable | project.py:205-225 | every state reachable from the provisioned database satisfies every invariant, with the corrected cancellation |
| Session.TwoReservationsFrom | project.py:272-381 | from a provisioned-shaped state, signup, two reservations by user 1 and driving "B" into its space give the two bookings with "B" parked |
| Session.AsWrittenCancelBreaksReachable | project.py:403-414 | from the provisioned database, that session reaches a valid state where the written cancellation reports success and breaks occupancy consistency, while the corrected one refuses |

## Left out

- MySQL connection setup, `send_query` error printing, `commit` and `disconnect` (project.py:7-14, 230-247): I/O plumbing. Each procedure call is one atomic step.
- Table and database DDL and `drop` statements (project.py:17-43, 57-122, 205-214): the datatypes stand in for them. The constraints modelled from them are the foreign keys of Bookings and Logs and the freshness of the auto-increment primary keys, all part of `Schema.Valid`.
- Menus, `input`/`print`, `sys.exit`, the recursive `main()` on logout, and the yes/no confirmation prompts: these are UI. The same goes for the sign-in check (project.py:258-270, 329-331), the free-space listing (project.py:334-340) and the profile join (project.py:384-396), which are read-only queries.
- Date formatting and the varchar rendering of `TIMEDIFF`: timestamps and durations are plain integers. MySQL's clamping of TIME values at 838:59:59 is not modelled.
- String comparison is exact. MySQL's default collation compares case- and accent-insensitively. Whether trailing spaces count depends on the server version and the column type. None of this is modelled; column widths are covered under Client.Signup and Client.Park below.
- Python's Unicode `str.lower` is reduced to ASCII lower-casing.
- Auto-increment values are consumed only by successful inserts. Values a failed insert may burn are not modelled, and they affect only id gaps.
- Procedures.DriveOut: requires at most one booking for the regNum, because the source's scalar subqueries fail otherwise. Schema.ValidRegSelectsAtMostOne shows this holds in every valid state.
- Procedures.AccountRemoval: requires the user to hold at most one booking, because the source's scalar subqueries fail otherwise. Nothing in `insert_booking` prevents a second booking per user. Session.Step treats such a call as failing before any write, so the state is unchanged.
- The client passes the signed-in user's id; a user id that does not exist makes the model's `insert_booking` refuse (foreign key).
- Session.Step: cancelling runs the corrected Client.Cancel, not the cancellation at project.py:403-417. With the written one, the invariants do not survive every session (Session.AsWrittenCancelBreaksReachable). So Session.Step, Session.Run and Session.Reachable promise the invariants only for the corrected session.
- Client.Signup: strings have no length limit in the model. Users.name is `varchar(30)`, and password and email are `varchar(50)` (project.py:62-64). The model assumes inputs within those widths. With a longer value, MySQL's strict sql_mode (the default since 5.7) rejects the insert at project.py:78-79, and `send_query` (project.py:7-14) only prints the error. The session still counts as signed in, and the user lookup at project.py:329-331 then finds no row and fails. Without strict mode, the value is truncated, and a second signup with the same over-long name would then pass the check at project.py:281. Neither behaviour is modelled.
- Client.Park: the model assumes registrations of at most 30 characters, the width of Floors.parkedRegNum, Bookings.regNum and the `char(30)` procedure parameters (project.py:36, 91, 127, 160). Under strict sql_mode, an over-long value makes the write or the call fail with no change, so a space keeps its previous occupant where the model writes NULL. Without strict mode, it is truncated. Neither is modelled.
- Procedures.Gate: the model assumes the trigger is in place on every update of Floors. project.py:144 declares it `on floors` while project.py:33 creates `Floors`, and `send_query` (project.py:9-14) only prints errors. On a server with case-sensitive table names (MySQL's `lower_case_table_names=0`, the Unix default), the trigger creation would fail unnoticed. No Floors write would then be gated, and occupancy consistency would not hold. The model assumes a server that resolves table names case-insensitively (the Windows and macOS default).
- Concurrency and row locking: the source runs one sequential client session.
- SQL injection through string interpolation, and plaintext passwords: these do not affect the state semantics.

## Findings

| source | as written | input that shows it | evidently intended | confidence | as-written member | corrected member |
|---|---|---|---|---|---|---|
| project.py:403-417 | cancellation checks only the first of the user's bookings for an occupied space, then deletes all of the user's bookings | user 1 books space 1 for "A" and space 2 for "B", and "B" is parked on space 2; cancelling deletes both bookings, and space 2 keeps showing "B" with no booking | refuse while any of the user's booked spaces shows the booked car | medium, not executed | Client.CancelAsWritten, Session.CancelAsWrittenOnTwoReservations, Session.AsWrittenCancelBreaksReachable | Client.Cancel, Client.CancelPreservesValid, Session.Reachable |

=== FILE: client.dfy ===
/**
 * The decisions the client session takes around the stored procedures
 * (project.py:256-445, menus and printing left out): signup uniqueness,
 * driving in and out, reserving a space and cancelling a reservation.
 * Each operation returns the outcome the client reports and the new state.
 */
module Client {
  import opened Tables
  import opened Schema
  import opened Procedures
  import opened Preservation

  // ---------------------------------------------------------------- signup

  datatype SignupOutcome = NameExists | EmailExists | SignedUp

  /** A user row conflicts with a new account: same name, or same email up to ASCII case. */
  predicate Clashes(x: User, name: string, mail: string) {
    name == x.name || LowerAscii(mail) == LowerAscii(x.email)
  }

  /** The scan over `select name, email from Users`, stopping at the first clash. */
  function FirstClash(us: seq<User>, name: string, mail: string): (k: nat)
    ensures k <= |us|
    ensures forall j :: 0 <= j < k ==> !Clashes(us[j], name, mail)
    ensures k < |us| ==> Clashes(us[k], name, mail)
  {
    if us == [] then 0
    else if Clashes(us[0], name, mail) then 0
    else 1 + FirstClash(us[1..], name, mail)
  }

  /**
   * Account creation (project.py:272-294): refused when some user has the
   * same name or, ignoring ASCII case, the same email (the message names
   * the name when the first clashing row has it); otherwise one user row
   * is inserted with the next id.
   */
  function Signup(db: Db, name: string, password: string, mail: string, now: int): (res: (SignupOutcome, Db))
    ensures res.0 == SignedUp <==>
      forall x :: x in db.users ==> x.name != name && LowerAscii(x.email) != LowerAscii(mail)
    ensures res.0 == SignedUp ==>
      res.1 == db.(users := db.users + [User(db.nextUserId, name, password, mail, now)],
                   nextUserId := db.nextUserId + 1)
    ensures res.0 == NameExists <==>
      var k := FirstClash(db.users, name, mail);
      k < |db.users| && db.users[k].name == name
    ensures res.0 == NameExists ==> res.1 == db && exists x :: x in db.users && x.name == name
    ensures res.0 == EmailExists ==>
      res.1 == db && exists x :: x in db.users && LowerAscii(x.email) == LowerAscii(mail)
  {
    var k := FirstClash(db.users, name, mail);
    if k < |db.users| then
      assert db.users[k] in db.users;
      (if name == db.users[k].name then NameExists else EmailExists, db)
    else
      assert forall x :: x in db.users ==> !Clashes(x, name, mail);
      (SignedUp, db.(users := db.users + [User(db.nextUserId, name, password, mail, now)],
                     nextUserId := db.nextUserId + 1))
  }

  /** Signup preserves every invariant, the distinctness of names and emails in particular. */
  lemma SignupPreservesValid(db: Db, name: string, password: string, mail: string, now: int)
    requires Valid(db)
    ensures Valid(Signup(db, name, password, mail, now).1)
  {
    var res := Signup(db, name, password, mail, now);
    if res.0 == SignedUp {
      var nu := User(db.nextUserId, name, password, mail, now);
      AppendUnique(db.users, nu, NameOf);
      AppendUnique(db.users, nu, EmailKey);
      AppendAscending(db.users, nu, UserKey, db.nextUserId);
      assert UserIds(db.users) <= UserIds(res.1.users);
    }
  }

  // ------------------------------------------------------------ driving in

  datatype ParkOutcome = ParkedOnBookedSpace | RemovedFromWrongSpace

  /**
   * Driving in (project.py:299-307): the occupancy write to the chosen space,
   * gated by the trigger, and then the report of whether any space now
   * shows the registration.
   */
  function Park(db: Db, regNum: RegNum, sID: int): (res: (ParkOutcome, Db))
    ensures res.1 == OccupancyWrite(db, sID, regNum)
    ensures res.1.bookings == db.bookings && res.1.logs == db.logs && res.1.users == db.users
    ensures res.0 == ParkedOnBookedSpace <==> Shows(res.1.floors, regNum)
    ensures res.0 == RemovedFromWrongSpace ==>
      forall i :: 0 <= i < |res.1.floors| ==> res.1.floors[i].parkedRegNum != Some(regNum)
  {
    var after := OccupancyWrite(db, sID, regNum);
    (if Shows(after.floors, regNum) then ParkedOnBookedSpace else RemovedFromWrongSpace, after)
  }

  /**
   * In a consistent state the client reports a successful park exactly when
   * the car is booked for an existing space it drove into, or was already
   * shown on a space (in which case the report names the old space, not
   * the one just tried).
   */
  lemma ParkOutcomeMeaning(db: Db, regNum: RegNum, sID: int)
    requires OccupancyConsistent(db)
    ensures Park(db, regNum, sID).0 == ParkedOnBookedSpace <==>
      || (BookedFor(db.bookings, regNum, sID) && sID in SpaceIds(db.floors))
      || Shows(db.floors, regNum)
  {
    var after := Park(db, regNum, sID).1;
    if BookedFor(db.bookings, regNum, sID) && sID in SpaceIds(db.floors) {
      var x :| x in db.floors && x.spaceId == sID;
      var i :| 0 <= i < |db.floors| && db.floors[i] == x;
      assert after.floors[i].parkedRegNum == Some(regNum);
    }
    if Shows(db.floors, regNum) {
      var j :| 0 <= j < |db.floors| && db.floors[j].parkedRegNum == Some(regNum);
      assert after.floors[j].parkedRegNum == Some(regNum);
    }
    if Shows(after.floors, regNum) {
      var i :| 0 <= i < |after.floors| && after.floors[i].parkedRegNum == Some(regNum);
      if db.floors[i].spaceId == sID {
        assert db.floors[i] in db.floors;
      }
    }
  }

  // ----------------------------------------------------------- driving out

  datatype LeaveOutcome = DroveOut | NotParked

  /**
   * Driving out (project.py:309-316): `drive_out` is called only when some
   * space shows the registration; a car that is booked but not parked
   * keeps its booking.
   */
  function Leave(db: Db, regNum: RegNum, now: int): (res: (LeaveOutcome, Db))
    requires |BookingsWithReg(db.bookings, regNum)| <= 1
    ensures res.0 == DroveOut <==> Shows(db.floors, regNum)
    ensures res.0 == DroveOut ==> res.1 == DriveOut(db, regNum, now)
    ensures !Shows(res.1.floors, regNum)
    ensures res.0 == NotParked ==> res.1 == db
    ensures res.0 == DroveOut ==> forall b :: b in res.1.bookings ==> b.regNum != regNum
    ensures res.0 == DroveOut ==> |res.1.logs| == |db.logs| + (if regNum in RegNumsOf(db.bookings) then 1 else 0)
  {
    if Shows(db.floors, regNum) then
      DriveOutTwice(db, regNum, now, now);
      (DroveOut, DriveOut(db, regNum, now))
    else
      (NotParked, db)
  }

  /**
   * Driving out is idempotent: once the car has left, a second attempt
   * finds it not parked and changes nothing; a booked car that was never
   * parked keeps its booking and no log row is written for it.
   */
  lemma LeaveTwice(db: Db, regNum: RegNum, now1: int, now2: int)
    requires |BookingsWithReg(db.bookings, regNum)| <= 1
    ensures var once := Leave(db, regNum, now1).1;
      && |BookingsWithReg(once.bookings, regNum)| <= 1
      && Leave(once, regNum, now2) == (NotParked, once)
    ensures !Shows(db.floors, regNum) ==>
      Leave(db, regNum, now1).1.bookings == db.bookings && Leave(db, regNum, now1).1.logs == db.logs
  {
    if Shows(db.floors, regNum) {
      DriveOutTwice(db, regNum, now1, now2);
    }
  }

  // ----------------------------------------------------------- reservation

  datatype ReserveOutcome = NoSuchFloor | NotOnFloor | RegNumTaken | SpaceTaken | Reserved

  /** Space `sID` lies on floor `floor`. */
  predicate SpaceOnFloor(db: Db, sID: int, floor: int) {
    exists i :: 0 <= i < |db.floors| && db.floors[i].spaceId == sID && db.floors[i].floorNum == floor
  }

  /**
   * The report after `insert_booking` (project.py:371-381), read from the
   * bookings of the space: none means the registration was in use; a
   * booking with another registration or user means the space was taken.
   */
  function ClassifyReservation(db: Db, regNum: RegNum, sID: int, uID: int): (r: ReserveOutcome)
    ensures r in {RegNumTaken, SpaceTaken, Reserved}
    ensures r == RegNumTaken <==> forall b :: b in db.bookings ==> b.spaceId != sID
    ensures r == SpaceTaken ==>
      exists b :: b in db.bookings && b.spaceId == sID && (b.regNum != regNum || b.userId != uID)
    ensures r == Reserved ==>
      exists b :: b in db.bookings && b.spaceId == sID && b.regNum == regNum && b.userId == uID
  {
    var rows := Filter(db.bookings, BookingSpaceIs(sID));
    if rows == [] then
      assert forall b :: b in db.bookings ==> !BookingSpaceIs(sID)(b);
      RegNumTaken
    else
      assert rows[0] in rows;
      if rows[0].regNum != regNum || rows[0].userId != uID then SpaceTaken
      else Reserved
  }

  /**
   * Reserving a space (project.py:342-381): the floor must exist and the
   * space must lie on it (both checked by the client), then `insert_booking`
   * runs and its result is classified by re-reading Bookings.
   */
  function Reserve(db: Db, uID: int, regNum: RegNum, floor: int, sID: int, now: int): (res: (ReserveOutcome, Db))
    ensures res.0 == NoSuchFloor <==> forall i :: 0 <= i < |db.floors| ==> db.floors[i].floorNum != floor
    ensures res.0 == NotOnFloor <==>
      (exists i :: 0 <= i < |db.floors| && db.floors[i].floorNum == floor) && !SpaceOnFloor(db, sID, floor)
    ensures res.0 in {NoSuchFloor, NotOnFloor} ==> res.1 == db
    ensures SpaceOnFloor(db, sID, floor) ==>
      && res.1 == InsertBooking(db, regNum, sID, uID, floor, now)
      && res.0 == ClassifyReservation(res.1, regNum, sID, uID)
  {
    if floor !in FloorNums(db.floors) then
      (NoSuchFloor, db)
    else if sID !in (set x | x in db.floors && x.floorNum == floor :: x.spaceId) then
      assert !SpaceOnFloor(db, sID, floor) by {
        forall i | 0 <= i < |db.floors| && db.floors[i].floorNum == floor
          ensures db.floors[i].spaceId != sID
        {
          assert db.floors[i] in db.floors;
        }
      }
      (NotOnFloor, db)
    else
      var after := InsertBooking(db, regNum, sID, uID, floor, now);
      (ClassifyReservation(after, regNum, sID, uID), after)
  }

  /** An admissible insertion is always reported as `Reserved`. */
  lemma InsertedIsReserved(db: Db, uID: int, regNum: RegNum, floor: int, sID: int, now: int)
    requires BookingAdmissible(db, regNum, sID, uID, floor)
    ensures ClassifyReservation(InsertBooking(db, regNum, sID, uID, floor, now), regNum, sID, uID) == Reserved
  {
    var after := InsertBooking(db, regNum, sID, uID, floor, now);
    var nb := Booking(db.nextBookingId, regNum, sID, uID, now);
    FilterAppend(db.bookings, nb, BookingSpaceIs(sID));
    FilterDropsAll(db.bookings, BookingSpaceIs(sID));
    assert Filter(after.bookings, BookingSpaceIs(sID)) == [nb];
  }

  /**
   * Classifying a state in which nothing was inserted: `Reserved` exactly
   * when the same booking is present, `SpaceTaken` only when another car or
   * user holds the space, `RegNumTaken` only when nobody holds it.
   */
  lemma ClassifyUnchanged(db: Db, regNum: RegNum, sID: int, uID: int)
    requires UniqueSpaceBookings(db.bookings)
    ensures var c := ClassifyReservation(db, regNum, sID, uID);
      && (c == Reserved <==>
            exists b :: b in db.bookings && b.regNum == regNum && b.spaceId == sID && b.userId == uID)
      && (c == SpaceTaken ==>
            exists b :: b in db.bookings && b.spaceId == sID && (b.regNum != regNum || b.userId != uID))
      && (c == RegNumTaken ==> forall b :: b in db.bookings ==> b.spaceId != sID)
  {
    var rows := Filter(db.bookings, BookingSpaceIs(sID));
    if rows != [] {
      assert rows[0] in rows;
      var b := rows[0];
      if exists b' :: b' in db.bookings && b'.regNum == regNum && b'.spaceId == sID && b'.userId == uID {
        var b' :| b' in db.bookings && b'.regNum == regNum && b'.spaceId == sID && b'.userId == uID;
        var p :| 0 <= p < |db.bookings| && db.bookings[p] == b;
        var q :| 0 <= q < |db.bookings| && db.bookings[q] == b';
        assert BookedSpaceOf(db.bookings[p]) == BookedSpaceOf(db.bookings[q]);
      }
    } else {
      assert forall b :: b in db.bookings ==> !BookingSpaceIs(sID)(b);
    }
  }

  /**
   * What the reservation report means. Only `Reserved` comes with a change
   * of state; it is reported exactly when the space lies on the floor and
   * the booking was inserted or the very same booking already existed.
   * `SpaceTaken` means the space was booked for another car or user;
   * `RegNumTaken` (for an existing user) means the registration was booked.
   */
  lemma ReserveOutcomeMeaning(db: Db, uID: int, regNum: RegNum, floor: int, sID: int, now: int)
    requires UniqueSpaceBookings(db.bookings)
    ensures var res := Reserve(db, uID, regNum, floor, sID, now);
      && (res.0 != Reserved ==> res.1 == db)
      && (res.0 == Reserved <==>
            SpaceOnFloor(db, sID, floor) &&
            (BookingAdmissible(db, regNum, sID, uID, floor) ||
             exists b :: b in db.bookings && b.regNum == regNum && b.spaceId == sID && b.userId == uID))
      && (res.0 == Reserved ==> res.1 == InsertBooking(db, regNum, sID, uID, floor, now))
      && (res.0 == Reserved ==>
            exists b :: b in res.1.bookings && b.regNum == regNum && b.spaceId == sID && b.userId == uID)
      && (res.0 == SpaceTaken ==>
            exists b :: b in db.bookings && b.spaceId == sID && (b.regNum != regNum || b.userId != uID))
      && (res.0 == RegNumTaken && (exists x :: x in db.users && x.userId == uID) ==>
            exists b :: b in db.bookings && b.regNum == regNum)
  {
    var res := Reserve(db, uID, regNum, floor, sID, now);
    if SpaceOnFloor(db, sID, floor) {
      var i :| 0 <= i < |db.floors| && db.floors[i].spaceId == sID && db.floors[i].floorNum == floor;
      assert db.floors[i] in db.floors;
      var after := InsertBooking(db, regNum, sID, uID, floor, now);
      assert res == (ClassifyReservation(after, regNum, sID, uID), after);
      if BookingAdmissible(db, regNum, sID, uID, floor) {
        InsertedIsReserved(db, uID, regNum, floor, sID, now);
        assert Booking(db.nextBookingId, regNum, sID, uID, now) in after.bookings;
      } else {
        ClassifyUnchanged(db, regNum, sID, uID);
      }
    }
  }

  // ------------------------------------------------------------ cancelling

  datatype CancelOutcome = NoReservation | Cancelled | SpaceInUse

  /**
   * Cancellation as the client writes it (project.py:403-417): it reads the
   * user's bookings, checks only the FIRST one's space for its car, and
   * then deletes ALL the user's bookings.
   */
  function CancelAsWritten(db: Db, uID: int): (res: (CancelOutcome, Db))
    ensures res.0 == NoReservation <==> forall b :: b in db.bookings ==> b.userId != uID
    ensures res.0 == SpaceInUse <==>
      var rows := BookingsOfUser(db.bookings, uID);
      rows != [] && ShowsAt(db.floors, rows[0].regNum, rows[0].spaceId)
    ensures res.0 != Cancelled ==> res.1 == db
    ensures res.0 == Cancelled ==>
      && res.1 == db.(bookings := res.1.bookings)
      && res.1.bookings == Filter(db.bookings, BookingUserIsNot(uID))
      && forall b :: b in res.1.bookings <==> b in db.bookings && b.userId != uID
  {
    var rows := BookingsOfUser(db.bookings, uID);
    if rows == [] then
      assert forall b :: b in db.bookings ==> !BookingUserIs(uID)(b);
      (NoReservation, db)
    else
      assert rows[0] in rows;
      if !ShowsAt(db.floors, rows[0].regNum, rows[0].spaceId) then
        (Cancelled, db.(bookings := Filter(db.bookings, BookingUserIsNot(uID))))
      else
        (SpaceInUse, db)
  }

  /** Some booking of the user has its space showing its registration. */
  predicate ReservationInUse(db: Db, uID: int) {
    exists b :: b in db.bookings && b.userId == uID && ShowsAt(db.floors, b.regNum, b.spaceId)
  }

  /**
   * Cancellation as evidently intended: refused while ANY of the user's
   * booked spaces shows the booked car; otherwise all the user's bookings
   * are deleted.
   */
  function Cancel(db: Db, uID: int): (res: (CancelOutcome, Db))
    ensures res.0 == NoReservation <==> forall b :: b in db.bookings ==> b.userId != uID
    ensures res.0 == SpaceInUse <==> ReservationInUse(db, uID)
    ensures res.0 != Cancelled ==> res.1 == db
    ensures res.0 == Cancelled ==>
      && res.1 == db.(bookings := res.1.bookings)
      && forall b :: b in res.1.bookings <==> b in db.bookings && b.userId != uID
  {
    var rows := BookingsOfUser(db.bookings, uID);
    if rows == [] then
      assert forall b :: b in db.bookings ==> !BookingUserIs(uID)(b);
      (NoReservation, db)
    else
      assert rows[0] in rows;
      if forall k | 0 <= k < |rows| :: !ShowsAt(db.floors, rows[k].regNum, rows[k].spaceId) then
        assert !ReservationInUse(db, uID) by {
          forall b | b in db.bookings && b.userId == uID
            ensures !ShowsAt(db.floors, b.regNum, b.spaceId)
          {
            assert b in rows;
          }
        }
        (Cancelled, db.(bookings := Filter(db.bookings, BookingUserIsNot(uID))))
      else
        var k :| 0 <= k < |rows| && ShowsAt(db.floors, rows[k].regNum, rows[k].spaceId);
        assert rows[k] in rows;
        (SpaceInUse, db)
  }

  /** Cancellation preserves every invariant, occupancy consistency in particular. */
  lemma CancelPreservesValid(db: Db, uID: int)
    requires Valid(db)
    ensures Valid(Cancel(db, uID).1)
  {
    var res := Cancel(db, uID);
    if res.0 == Cancelled {
      var r := res.1;
      assert r.bookings == Filter(db.bookings, BookingUserIsNot(uID));
      FilterUnique(db.bookings, BookingUserIsNot(uID), RegOf);
      FilterUnique(db.bookings, BookingUserIsNot(uID), BookedSpaceOf);
      FilterAscending(db.bookings, BookingUserIsNot(uID), BookingKey);
      forall k | 0 <= k < |r.floors| && r.floors[k].parkedRegNum.Some?
        ensures BookedFor(r.bookings, r.floors[k].parkedRegNum.value, r.floors[k].spaceId)
      {
        var x := r.floors[k].parkedRegNum.value;
        var b :| b in db.bookings && b.regNum == x && b.spaceId == r.floors[k].spaceId;
        assert ShowsAt(db.floors, b.regNum, b.spaceId);
        assert b.userId != uID;
        assert b in r.bookings;
      }
    }
  }

  /** For a user holding at most one booking the written cancellation is the intended one. */
  lemma CancelAsWrittenAgrees(db: Db, uID: int)
    requires |BookingsOfUser(db.bookings, uID)| <= 1
    ensures CancelAsWritten(db, uID) == Cancel(db, uID)
  {
    var rows := BookingsOfUser(db.bookings, uID);
    if rows != [] {
      assert |rows| == 1;
    }
  }

  /**
   * The written cancellation keeps every invariant except occupancy
   * consistency: it deletes an order-preserving selection of Bookings, so
   * both uniqueness invariants, the keys and the references survive.
   */
  lemma CancelAsWrittenKeepsKeys(db: Db, uID: int)
    requires Valid(db)
    ensures var r := CancelAsWritten(db, uID).1;
      && UsersDistinct(r.users) && UniqueRegNums(r.bookings) && UniqueSpaceBookings(r.bookings)
      && ReferencesResolve(r) && KeysFresh(r)
  {
    if CancelAsWritten(db, uID).0 == Cancelled {
      FilterUnique(db.bookings, BookingUserIsNot(uID), RegOf);
      FilterUnique(db.bookings, BookingUserIsNot(uID), BookedSpaceOf);
      FilterAscending(db.bookings, BookingUserIsNot(uID), BookingKey);
    }
  }
}

=== FILE: preservation.dfy ===
/**
 * The garage invariants (one booking per registration, one booking per
 * space, an occupied space shows a registration booked for it, foreign
 * keys resolve, primary keys fresh) are preserved by the trigger-gated
 * updates and by every stored procedure; and the procedures' relational
 * properties: drive-out is idempotent, account removal leaves every other
 * user's rows alone.
 */
module Preservation {
  import opened Tables
  import opened Schema
  import opened Procedures

  /** Floors rows whose ids are unchanged position by position carry the same key facts. */
  lemma SameSpaceIds(a: seq<Space>, b: seq<Space>, bound: int)
    requires |a| == |b|
    requires forall i :: 0 <= i < |a| ==> a[i].spaceId == b[i].spaceId
    ensures SpaceIds(a) == SpaceIds(b)
    ensures Ascending(a, SpaceKey) ==> Ascending(b, SpaceKey)
    ensures Below(a, SpaceKey, bound) ==> Below(b, SpaceKey, bound)
  {
    forall s | s in SpaceIds(a) ensures s in SpaceIds(b) {
      var x :| x in a && x.spaceId == s;
      var i :| 0 <= i < |a| && a[i] == x;
      assert b[i] in b;
    }
    forall s | s in SpaceIds(b) ensures s in SpaceIds(a) {
      var x :| x in b && x.spaceId == s;
      var i :| 0 <= i < |b| && b[i] == x;
      assert a[i] in a;
    }
    if Below(a, SpaceKey, bound) {
      forall x | x in b ensures SpaceKey(x) < bound {
        var i :| 0 <= i < |b| && b[i] == x;
        assert a[i] in a;
      }
    }
  }

  /** Any trigger-gated update of Floors preserves every invariant. */
  lemma UpdateFloorsPreservesValid(db: Db, cond: Space -> bool, v: Option<RegNum>)
    requires Valid(db)
    ensures Valid(UpdateFloors(db, cond, v))
  {
    var r := UpdateFloors(db, cond, v);
    SameSpaceIds(db.floors, r.floors, db.nextSpaceId);
    forall i | 0 <= i < |r.floors| && r.floors[i].parkedRegNum.Some?
      ensures BookedFor(r.bookings, r.floors[i].parkedRegNum.value, r.floors[i].spaceId)
    {
    }
  }

  /** A client occupancy write, gated by the trigger, preserves every invariant. */
  lemma OccupancyWritePreservesValid(db: Db, sID: int, v: RegNum)
    requires Valid(db)
    ensures Valid(OccupancyWrite(db, sID, v))
  {
    UpdateFloorsPreservesValid(db, SpaceIdIs(sID), Some(v));
  }

  /** `insert_booking` preserves every invariant, the two uniqueness ones in particular. */
  lemma InsertBookingPreservesValid(db: Db, rNum: RegNum, sID: int, uID: int, fNum: int, now: int)
    requires Valid(db)
    ensures Valid(InsertBooking(db, rNum, sID, uID, fNum, now))
  {
    if BookingAdmissible(db, rNum, sID, uID, fNum) {
      var r := InsertBooking(db, rNum, sID, uID, fNum, now);
      var nb := Booking(db.nextBookingId, rNum, sID, uID, now);
      AppendUnique(db.bookings, nb, RegOf);
      AppendUnique(db.bookings, nb, BookedSpaceOf);
      AppendAscending(db.bookings, nb, BookingKey, db.nextBookingId);
      var i :| 0 <= i < |db.floors| && db.floors[i].spaceId == sID;
      assert db.floors[i] in db.floors;
      var u :| u in db.users && u.userId == uID;
      forall k | 0 <= k < |r.floors| && r.floors[k].parkedRegNum.Some?
        ensures BookedFor(r.bookings, r.floors[k].parkedRegNum.value, r.floors[k].spaceId)
      {
        var b :| b in db.bookings && b.regNum == r.floors[k].parkedRegNum.value && b.spaceId == r.floors[k].spaceId;
        assert b in r.bookings;
      }
    }
  }

  /** `drive_out` preserves every invariant. */
  lemma DriveOutPreservesValid(db: Db, rNum: RegNum, now: int)
    requires Valid(db)
    ensures |BookingsWithReg(db.bookings, rNum)| <= 1
    ensures Valid(DriveOut(db, rNum, now))
  {
    ValidRegSelectsAtMostOne(db, rNum);
    DriveOutKeepsKeys(db, rNum, now);
    DriveOutKeepsOccupancy(db, rNum, now);
  }

  /** The primary- and foreign-key parts of the invariant survive `drive_out`. */
  lemma DriveOutKeepsKeys(db: Db, rNum: RegNum, now: int)
    requires Valid(db)
    requires |BookingsWithReg(db.bookings, rNum)| <= 1
    ensures var r := DriveOut(db, rNum, now);
      && UsersDistinct(r.users) && UniqueRegNums(r.bookings) && UniqueSpaceBookings(r.bookings)
      && ReferencesResolve(r) && KeysFresh(r)
  {
    var r := DriveOut(db, rNum, now);
    SameSpaceIds(db.floors, r.floors, db.nextSpaceId);
    var cleared := if Shows(db.floors, rNum) then UpdateFloors(db, Showing(rNum), None) else db;
    assert cleared.bookings == db.bookings && cleared.logs == db.logs && cleared.nextLogId == db.nextLogId;
    if rNum in RegNumsOf(db.bookings) {
      var b :| b in db.bookings && b.regNum == rNum;
      assert r.bookings == Filter(db.bookings, RegIsNot(rNum));
      FilterUnique(db.bookings, RegIsNot(rNum), RegOf);
      FilterUnique(db.bookings, RegIsNot(rNum), BookedSpaceOf);
      FilterAscending(db.bookings, RegIsNot(rNum), BookingKey);
      var entry := LogEntry(db.nextLogId, b.userId, rNum, b.startTime, now, now - b.startTime);
      assert r.logs == db.logs + [entry];
      AppendAscending(db.logs, entry, LogKey, db.nextLogId);
    } else {
      assert r.bookings == db.bookings && r.logs == db.logs;
    }
  }

  /** The occupancy invariant survives `drive_out`: every other car keeps its booking. */
  lemma DriveOutKeepsOccupancy(db: Db, rNum: RegNum, now: int)
    requires OccupancyConsistent(db)
    requires |BookingsWithReg(db.bookings, rNum)| <= 1
    ensures OccupancyConsistent(DriveOut(db, rNum, now))
  {
    var r := DriveOut(db, rNum, now);
    forall k | 0 <= k < |r.floors| && r.floors[k].parkedRegNum.Some?
      ensures BookedFor(r.bookings, r.floors[k].parkedRegNum.value, r.floors[k].spaceId)
    {
      var x := r.floors[k].parkedRegNum.value;
      assert r.floors[k] == db.floors[k];
      var b :| b in db.bookings && b.regNum == x && b.spaceId == r.floors[k].spaceId;
      assert b in r.bookings;
    }
  }

  /** `account_removal` preserves every invariant (for a user holding at most one booking). */
  lemma AccountRemovalPreservesValid(db: Db, uID: int)
    requires Valid(db)
    requires |BookingsOfUser(db.bookings, uID)| <= 1
    ensures Valid(AccountRemoval(db, uID))
  {
    var r := AccountRemoval(db, uID);
    SameSpaceIds(db.floors, r.floors, db.nextSpaceId);
    // The deletions are order-preserving selections of the original rows.
    assert r.bookings == Filter(db.bookings, BookingUserIsNot(uID)) by {
      if uID !in BookingUserIds(db.bookings) {
        FilterKeepsAll(db.bookings, BookingUserIsNot(uID));
      }
    }
    assert r.logs == Filter(db.logs, LogUserIsNot(uID)) by {
      if uID !in LogUserIds(db.logs) {
        FilterKeepsAll(db.logs, LogUserIsNot(uID));
      }
    }
    assert r.users == Filter(db.users, UserIsNot(uID));
    FilterUnique(db.bookings, BookingUserIsNot(uID), RegOf);
    FilterUnique(db.bookings, BookingUserIsNot(uID), BookedSpaceOf);
    FilterAscending(db.bookings, BookingUserIsNot(uID), BookingKey);
    FilterAscending(db.logs, LogUserIsNot(uID), LogKey);
    FilterAscending(db.users, UserIsNot(uID), UserKey);
    FilterUnique(db.users, UserIsNot(uID), NameOf);
    FilterUnique(db.users, UserIsNot(uID), EmailKey);
    forall k | 0 <= k < |r.floors| && r.floors[k].parkedRegNum.Some?
      ensures BookedFor(r.bookings, r.floors[k].parkedRegNum.value, r.floors[k].spaceId)
    {
      var x := r.floors[k].parkedRegNum.value;
      assert r.floors[k] == db.floors[k];
      var b :| b in db.bookings && b.regNum == x && b.spaceId == r.floors[k].spaceId;
      assert Shows(db.floors, b.regNum);
      assert b.userId != uID;
      assert b in r.bookings;
    }
    forall b | b in r.bookings
      ensures b.userId in UserIds(r.users)
    {
      var x :| x in db.users && x.userId == b.userId;
      assert x in r.users;
    }
    forall l | l in r.logs
      ensures l.userId in UserIds(r.users)
    {
      var x :| x in db.users && x.userId == l.userId;
      assert x in r.users;
    }
  }

  /**
   * Calling `drive_out` twice in a row: the second call changes nothing, and
   * the pair appends exactly one log row when the registration was booked
   * and none otherwise.
   */
  lemma DriveOutTwice(db: Db, rNum: RegNum, now1: int, now2: int)
    requires |BookingsWithReg(db.bookings, rNum)| <= 1
    ensures var once := DriveOut(db, rNum, now1);
      && |BookingsWithReg(once.bookings, rNum)| == 0
      && DriveOut(once, rNum, now2) == once
      && |once.logs| == |db.logs| + (if rNum in RegNumsOf(db.bookings) then 1 else 0)
  {
    var once := DriveOut(db, rNum, now1);
    FilterDropsAll(once.bookings, RegIs(rNum));
    assert rNum !in RegNumsOf(once.bookings);
    var twice := DriveOut(once, rNum, now2);
    assert twice.floors == once.floors;
    if rNum in RegNumsOf(db.bookings) {
      var b :| b in db.bookings && b.regNum == rNum;
    }
  }

  /**
   * `account_removal` of one user leaves every other user's bookings, logs
   * and user row exactly as they were.
   */
  lemma AccountRemovalKeepsOthers(db: Db, uID: int, other: int)
    requires |BookingsOfUser(db.bookings, uID)| <= 1
    requires other != uID
    ensures var r := AccountRemoval(db, uID);
      && BookingsOfUser(r.bookings, other) == BookingsOfUser(db.bookings, other)
      && LogsOfUser(r.logs, other) == LogsOfUser(db.logs, other)
      && UserRows(r.users, other) == UserRows(db.users, other)
  {
    var r := AccountRemoval(db, uID);
    if uID in BookingUserIds(db.bookings) {
      FilterOfFilter(db.bookings, BookingUserIsNot(uID), BookingUserIs(other));
    }
    if uID in LogUserIds(db.logs) {
      FilterOfFilter(db.logs, LogUserIsNot(uID), LogUserIs(other));
    }
    FilterOfFilter(db.users, UserIsNot(uID), UserIs(other));
  }

  /** Removing an account that holds no booking and no log deletes only its user row. */
  lemma AccountRemovalWithoutHistory(db: Db, uID: int)
    requires BookingsOfUser(db.bookings, uID) == [] && LogsOfUser(db.logs, uID) == []
    ensures var r := AccountRemoval(db, uID);
      && r.floors == db.floors && r.bookings == db.bookings && r.logs == db.logs
      && UserRows(r.users, uID) == []
  {
    var r := AccountRemoval(db, uID);
    assert forall l :: l in db.logs ==> !LogUserIs(uID)(l);
    assert forall b :: b in db.bookings ==> !BookingUserIs(uID)(b);
    FilterDropsAll(r.users, UserIs(uID));
  }
}

=== FILE: procedures.dfy ===
/**
 * The server-side routines of the garage database as pure transitions:
 * the `parkedRegNumUpdate` trigger (as a gate applied by every update of
 * Floors), and the stored procedures `insert_booking`, `drive_out` and
 * `account_removal` (project.py:124-203). Each call is one atomic step.
 */
module Procedures {
  import opened Tables
  import opened Schema

  /**
   * The `parkedRegNumUpdate` trigger on the new version of one Floors row.
   * With SQL NULL semantics: a NULL value is left NULL; a non-NULL value
   * survives only if it is a regNum booked for that space (against no
   * booking at all, `x not in ()` holds and the value is reset).
   */
  function Gate(bs: seq<Booking>, row: Space): (r: Space)
    ensures r.spaceId == row.spaceId && r.floorNum == row.floorNum
    ensures r.parkedRegNum.Some? ==>
      r.parkedRegNum == row.parkedRegNum && BookedFor(bs, r.parkedRegNum.value, r.spaceId)
    ensures row.parkedRegNum.Some? && BookedFor(bs, row.parkedRegNum.value, row.spaceId) ==> r == row
  {
    match row.parkedRegNum
    case None => row
    case Some(v) =>
      if v !in (set b | b in bs && b.spaceId == row.spaceId :: b.regNum) then
        row.(parkedRegNum := None)
      else
        row
  }

  /**
   * `update Floors set parkedRegNum = v where cond`: every matched row is
   * passed through the trigger before it is written; no other table moves.
   */
  function UpdateFloors(db: Db, cond: Space -> bool, v: Option<RegNum>): (r: Db)
    ensures r == db.(floors := r.floors)
    ensures |r.floors| == |db.floors|
    ensures forall i :: 0 <= i < |db.floors| ==>
      && r.floors[i].spaceId == db.floors[i].spaceId
      && r.floors[i].floorNum == db.floors[i].floorNum
      && (!cond(db.floors[i]) ==> r.floors[i] == db.floors[i])
      && (cond(db.floors[i]) ==>
            r.floors[i].parkedRegNum == if v.Some? && BookedFor(db.bookings, v.value, db.floors[i].spaceId) then v else None)
  {
    db.(floors := seq(|db.floors|, i requires 0 <= i < |db.floors| =>
      if cond(db.floors[i]) then Gate(db.bookings, db.floors[i].(parkedRegNum := v))
      else db.floors[i]))
  }

  /**
   * A client occupancy write, `update Floors set parkedRegNum = v where
   * spaceID = s` (project.py:301), gated by the trigger: space s ends up
   * showing v exactly when v is booked for s, and NULL otherwise.
   */
  function OccupancyWrite(db: Db, sID: int, v: RegNum): (r: Db)
    ensures r == db.(floors := r.floors)
    ensures r.bookings == db.bookings && r.logs == db.logs && r.users == db.users
    ensures |r.floors| == |db.floors|
    ensures forall i :: 0 <= i < |db.floors| ==>
      && r.floors[i].spaceId == db.floors[i].spaceId
      && r.floors[i].floorNum == db.floors[i].floorNum
      && (db.floors[i].spaceId != sID ==> r.floors[i] == db.floors[i])
      && (db.floors[i].spaceId == sID ==>
            r.floors[i].parkedRegNum == if BookedFor(db.bookings, v, sID) then Some(v) else None)
  {
    UpdateFloors(db, SpaceIdIs(sID), Some(v))
  }

  /**
   * When `insert_booking` inserts: the regNum and the space are not booked,
   * the space exists, some space lies on floor `fNum` (the two existence
   * tests are independent: the space need not be on that floor), and the
   * user exists (the foreign key of Bookings.userID).
   */
  predicate BookingAdmissible(db: Db, rNum: RegNum, sID: int, uID: int, fNum: int) {
    && (forall b :: b in db.bookings ==> b.regNum != rNum && b.spaceId != sID)
    && (exists i :: 0 <= i < |db.floors| && db.floors[i].spaceId == sID)
    && (exists i :: 0 <= i < |db.floors| && db.floors[i].floorNum == fNum)
    && (exists u :: u in db.users && u.userId == uID)
  }

  /**
   * The `insert_booking` procedure: it appends exactly one booking
   * (next id, rNum, sID, uID, start = now) when admissible, and otherwise
   * silently leaves the database as it was.
   */
  function InsertBooking(db: Db, rNum: RegNum, sID: int, uID: int, fNum: int, now: int): (r: Db)
    ensures |r.bookings| == |db.bookings| + 1 <==> BookingAdmissible(db, rNum, sID, uID, fNum)
    ensures BookingAdmissible(db, rNum, sID, uID, fNum) ==>
      && r.bookings == db.bookings + [Booking(db.nextBookingId, rNum, sID, uID, now)]
      && r.nextBookingId == db.nextBookingId + 1
      && r == db.(bookings := r.bookings, nextBookingId := r.nextBookingId)
    ensures !BookingAdmissible(db, rNum, sID, uID, fNum) ==> r == db
  {
    if rNum !in RegNumsOf(db.bookings) && sID !in BookedSpaceIds(db.bookings) then
      if sID in SpaceIds(db.floors) && fNum in FloorNums(db.floors) then
        if uID in UserIds(db.users) then
          db.(bookings := db.bookings + [Booking(db.nextBookingId, rNum, sID, uID, now)],
              nextBookingId := db.nextBookingId + 1)
        else
          db
      else
        db
    else
      db
  }

  /**
   * The `drive_out` procedure. Two independent steps: every space showing
   * rNum is cleared; and, if rNum is booked, a log row (user, rNum, start,
   * now, now - start) is appended and the booking deleted. The scalar
   * subqueries that read the booking need at most one booking for rNum.
   */
  function DriveOut(db: Db, rNum: RegNum, now: int): (r: Db)
    requires |BookingsWithReg(db.bookings, rNum)| <= 1
    ensures !Shows(r.floors, rNum)
    ensures forall b :: b in r.bookings ==> b in db.bookings && b.regNum != rNum
    ensures forall b :: b in db.bookings && b.regNum != rNum ==> b in r.bookings
    ensures r.users == db.users
    ensures r.nextSpaceId == db.nextSpaceId && r.nextBookingId == db.nextBookingId && r.nextUserId == db.nextUserId
    ensures |r.floors| == |db.floors|
    ensures forall i :: 0 <= i < |db.floors| ==>
      && r.floors[i].spaceId == db.floors[i].spaceId
      && r.floors[i].floorNum == db.floors[i].floorNum
      && (db.floors[i].parkedRegNum != Some(rNum) ==> r.floors[i] == db.floors[i])
      && (db.floors[i].parkedRegNum == Some(rNum) ==> r.floors[i].parkedRegNum == None)
    ensures forall b :: b in db.bookings && b.regNum == rNum ==>
      && r.logs == db.logs + [LogEntry(db.nextLogId, b.userId, rNum, b.startTime, now, now - b.startTime)]
      && r.nextLogId == db.nextLogId + 1
    ensures (forall b :: b in db.bookings ==> b.regNum != rNum) ==>
      r.bookings == db.bookings && r.logs == db.logs && r.nextLogId == db.nextLogId
  {
    var cleared := if Shows(db.floors, rNum) then UpdateFloors(db, Showing(rNum), None) else db;
    if rNum in RegNumsOf(cleared.bookings) then
      var matching := BookingsWithReg(cleared.bookings, rNum);
      var b :| b in cleared.bookings && b.regNum == rNum;
      assert b in matching;
      var booking := matching[0];
      assert booking == b by {
        assert booking in matching;
      }
      var entry := LogEntry(cleared.nextLogId, booking.userId, rNum, booking.startTime, now, now - booking.startTime);
      cleared.(logs := cleared.logs + [entry],
               nextLogId := cleared.nextLogId + 1,
               bookings := Filter(cleared.bookings, RegIsNot(rNum)))
    else
      cleared
  }

  /**
   * The `account_removal` procedure. If the user holds a booking and some
   * space shows its regNum, the booked space (matched by spaceID) is set
   * to NULL; then the user's bookings, logs and user row are deleted. The
   * scalar subqueries on Bookings need the user to hold at most one booking.
   */
  function AccountRemoval(db: Db, uID: int): (r: Db)
    requires |BookingsOfUser(db.bookings, uID)| <= 1
    ensures forall b :: b in r.bookings ==> b in db.bookings && b.userId != uID
    ensures forall l :: l in r.logs ==> l in db.logs && l.userId != uID
    ensures forall x :: x in r.users ==> x in db.users && x.userId != uID
    ensures forall b :: b in db.bookings && b.userId != uID ==> b in r.bookings
    ensures forall l :: l in db.logs && l.userId != uID ==> l in r.logs
    ensures forall x :: x in db.users && x.userId != uID ==> x in r.users
    ensures r.nextSpaceId == db.nextSpaceId && r.nextBookingId == db.nextBookingId
    ensures r.nextLogId == db.nextLogId && r.nextUserId == db.nextUserId
    ensures |r.floors| == |db.floors|
    ensures forall i :: 0 <= i < |db.floors| ==>
      && r.floors[i].spaceId == db.floors[i].spaceId
      && r.floors[i].floorNum == db.floors[i].floorNum
      && (r.floors[i] == db.floors[i] || r.floors[i].parkedRegNum == None)
    ensures forall i :: 0 <= i < |db.floors| && r.floors[i] != db.floors[i] ==>
      exists b :: b in db.bookings && b.userId == uID && b.spaceId == db.floors[i].spaceId && Shows(db.floors, b.regNum)
    ensures forall b, i ::
      (b in db.bookings && b.userId == uID && 0 <= i < |db.floors| &&
       db.floors[i].spaceId == b.spaceId && Shows(db.floors, b.regNum)) ==> r.floors[i].parkedRegNum == None
    ensures (forall b :: b in db.bookings ==> b.userId != uID) ==> r.floors == db.floors && r.bookings == db.bookings
  {
    var afterBookings :=
      if uID in BookingUserIds(db.bookings) then
        var b := BookingsOfUser(db.bookings, uID)[0];
        var cleared := if Shows(db.floors, b.regNum) then UpdateFloors(db, SpaceIdIs(b.spaceId), None) else db;
        cleared.(bookings := Filter(cleared.bookings, BookingUserIsNot(uID)))
      else
        db;
    var afterLogs :=
      if uID in LogUserIds(afterBookings.logs) then
        afterBookings.(logs := Filter(afterBookings.logs, LogUserIsNot(uID)))
      else
        afterBookings;
    afterLogs.(users := Filter(afterLogs.users, UserIsNot(uID)))
  }
}

=== FILE: provisioning.dfy ===
/**
 * Provisioning of parking spaces: `insert_floor_spaces` and the space
 * layout `initialize_DB` creates (project.py:45-55, 205-225).
 */
module Provisioning {
  import opened Tables
  import opened Schema

  /** Spaces per floor argument that `initialize_DB` passes (one more than it yields). */
  const SpacesArgument := 6

  /** `initialize_DB` provisions floors `range(1, LastFloorBound)`. */
  const LastFloorBound := 4

  /** Number of iterations of Python's `range(i, n)`. */
  function RangeLength(i: int, n: int): nat {
    if i < n then n - i else 0
  }

  /** `insert into Floors (floorNum) values (f)`: one empty space, next auto-increment id. */
  function InsertSpace(db: Db, floorNumber: int): Db {
    db.(floors := db.floors + [Space(db.nextSpaceId, floorNumber, None)],
        nextSpaceId := db.nextSpaceId + 1)
  }

  /** The loop of `insert_floor_spaces`, from iteration `i` of `range(i, n)` on. */
  function InsertSpacesFrom(db: Db, floorNumber: int, i: int, n: int): (r: Db)
    decreases n - i
    ensures r == db.(floors := r.floors, nextSpaceId := r.nextSpaceId)
    ensures r.nextSpaceId == db.nextSpaceId + RangeLength(i, n)
    ensures |r.floors| == |db.floors| + RangeLength(i, n)
    ensures r.floors[..|db.floors|] == db.floors
    ensures forall k :: |db.floors| <= k < |r.floors| ==>
      r.floors[k] == Space(db.nextSpaceId + (k - |db.floors|), floorNumber, None)
  {
    if i >= n then db
    else
      var d1 := InsertSpace(db, floorNumber);
      var r := InsertSpacesFrom(d1, floorNumber, i + 1, n);
      assert r.floors[..|d1.floors|][..|db.floors|] == r.floors[..|db.floors|];
      assert r.floors[|db.floors|] == r.floors[..|d1.floors|][|db.floors|];
      r
  }

  /**
   * `insert_floor_spaces(f, n)` loops over `range(1, n)`, so it appends
   * n - 1 empty spaces on floor f (none when n <= 1) with consecutive ids
   * and touches no other table.
   */
  function InsertFloorSpaces(db: Db, floorNumber: int, parkSpaceNum: int): (r: Db)
    ensures r == db.(floors := r.floors, nextSpaceId := r.nextSpaceId)
    ensures |r.floors| == |db.floors| + (if parkSpaceNum > 1 then parkSpaceNum - 1 else 0)
    ensures r.nextSpaceId == db.nextSpaceId + (|r.floors| - |db.floors|)
    ensures r.floors[..|db.floors|] == db.floors
    ensures forall k :: |db.floors| <= k < |r.floors| ==>
      r.floors[k] == Space(db.nextSpaceId + (k - |db.floors|), floorNumber, None)
  {
    InsertSpacesFrom(db, floorNumber, 1, parkSpaceNum)
  }

  /**
   * The loop `for i in range(f, 4): insert_floor_spaces(i, 6)`: five
   * spaces for each remaining floor, floor by floor, ids consecutive.
   */
  function ProvisionFloorsFrom(db: Db, f: int): (r: Db)
    requires 1 <= f <= LastFloorBound
    decreases LastFloorBound - f
    ensures r == db.(floors := r.floors, nextSpaceId := r.nextSpaceId)
    ensures |r.floors| == |db.floors| + 5 * (LastFloorBound - f)
    ensures r.nextSpaceId == db.nextSpaceId + 5 * (LastFloorBound - f)
    ensures r.floors[..|db.floors|] == db.floors
    ensures forall k :: |db.floors| <= k < |r.floors| ==>
      r.floors[k] == Space(db.nextSpaceId + (k - |db.floors|), f + (k - |db.floors|) / 5, None)
  {
    if f >= LastFloorBound then db
    else
      var d1 := InsertFloorSpaces(db, f, SpacesArgument);
      var r := ProvisionFloorsFrom(d1, f + 1);
      assert |d1.floors| == |db.floors| + 5;
      assert r.floors[..|d1.floors|][..|db.floors|] == r.floors[..|db.floors|];
      forall k | |db.floors| <= k < |r.floors|
        ensures r.floors[k] == Space(db.nextSpaceId + (k - |db.floors|), f + (k - |db.floors|) / 5, None)
      {
        var d := k - |db.floors|;
        if d < 5 {
          assert r.floors[k] == r.floors[..|d1.floors|][k];
          assert d1.floors[k] == Space(db.nextSpaceId + d, f, None);
          assert d / 5 == 0;
        } else {
          assert k - |d1.floors| == d - 5;
          assert (d - 5) / 5 + 1 == d / 5;
        }
      }
      r
  }

  /**
   * `initialize_DB` on fresh tables: three floors of five spaces, spaceID k
   * (1..15) on floor (k - 1) / 5 + 1, none occupied, no other rows.
   */
  function InitializeDb(): (r: Db)
    ensures r.bookings == [] && r.logs == [] && r.users == []
    ensures |r.floors| == 15 && r.nextSpaceId == 16
    ensures r.nextBookingId == 1 && r.nextLogId == 1 && r.nextUserId == 1
    ensures forall i :: 0 <= i < |r.floors| ==>
      && r.floors[i].spaceId == i + 1
      && r.floors[i].floorNum == (r.floors[i].spaceId - 1) / 5 + 1
      && r.floors[i].parkedRegNum == None
  {
    ProvisionFloorsFrom(EmptyDb, 1)
  }

  /** The provisioned database satisfies every invariant. */
  lemma InitializeDbValid()
    ensures Valid(InitializeDb())
  {
    var db := InitializeDb();
    EmptySpacesValid(db);
  }

  /** Tables holding only empty spaces numbered 1, 2, … in order are valid. */
  lemma EmptySpacesValid(db: Db)
    requires db.bookings == [] && db.logs == [] && db.users == []
    requires db.nextSpaceId == |db.floors| + 1
    requires forall i :: 0 <= i < |db.floors| ==>
      db.floors[i].spaceId == i + 1 && db.floors[i].parkedRegNum == None
    ensures Valid(db)
  {
    forall x | x in db.floors
      ensures SpaceKey(x) < db.nextSpaceId
    {
      var i :| 0 <= i < |db.floors| && db.floors[i] == x;
    }
    forall i, j | 0 <= i < j < |db.floors|
      ensures SpaceKey(db.floors[i]) < SpaceKey(db.floors[j])
    {
    }
  }
}

=== FILE: schema.dfy ===
/**
 * The garage database as one immutable value: the four relations Floors,
 * Bookings, Logs and Users, each with its auto-increment counter, and the
 * consistency invariants the stored procedures and the trigger maintain.
 */
module Schema {
  import opened Tables

  /** A vehicle registration number (varchar(30) in the source). */
  type RegNum = string

  /** A row of Floors: one parking space; `parkedRegNum` is NULL when empty. */
  datatype Space = Space(spaceId: int, floorNum: int, parkedRegNum: Option<RegNum>)

  /** A row of Bookings: an active reservation of one space for one car. */
  datatype Booking = Booking(bookingId: int, regNum: RegNum, spaceId: int, userId: int, startTime: int)

  /** A row of Logs: one completed parking session; `totalTime` is the elapsed time. */
  datatype LogEntry = LogEntry(logId: int, userId: int, regNum: RegNum, startTime: int, endTime: int, totalTime: int)

  /** A row of Users. */
  datatype User = User(userId: int, name: string, password: string, email: string, createdDate: int)

  /** The whole database; `next*` is the value the next auto-increment insert receives. */
  datatype Db = Db(
    floors: seq<Space>,
    bookings: seq<Booking>,
    logs: seq<LogEntry>,
    users: seq<User>,
    nextSpaceId: int,
    nextBookingId: int,
    nextLogId: int,
    nextUserId: int)

  /** Freshly created tables: no rows, every auto-increment counter at 1. */
  const EmptyDb := Db([], [], [], [], 1, 1, 1, 1)

  // Column projections, used as key functions.
  function SpaceKey(s: Space): int { s.spaceId }
  function BookingKey(b: Booking): int { b.bookingId }
  function LogKey(l: LogEntry): int { l.logId }
  function UserKey(u: User): int { u.userId }
  function RegOf(b: Booking): RegNum { b.regNum }
  function BookedSpaceOf(b: Booking): int { b.spaceId }

  // Row conditions of the `where` clauses in the source.
  function RegIs(r: RegNum): Booking -> bool { (b: Booking) => b.regNum == r }
  function RegIsNot(r: RegNum): Booking -> bool { (b: Booking) => b.regNum != r }
  function BookingSpaceIs(s: int): Booking -> bool { (b: Booking) => b.spaceId == s }
  function BookingUserIs(u: int): Booking -> bool { (b: Booking) => b.userId == u }
  function BookingUserIsNot(u: int): Booking -> bool { (b: Booking) => b.userId != u }
  function LogUserIs(u: int): LogEntry -> bool { (l: LogEntry) => l.userId == u }
  function LogUserIsNot(u: int): LogEntry -> bool { (l: LogEntry) => l.userId != u }
  function UserIs(u: int): User -> bool { (x: User) => x.userId == u }
  function UserIsNot(u: int): User -> bool { (x: User) => x.userId != u }
  function SpaceIdIs(s: int): Space -> bool { (x: Space) => x.spaceId == s }
  function Showing(r: RegNum): Space -> bool { (x: Space) => x.parkedRegNum == Some(r) }

  // Single-column selections, as sets of values.
  function RegNumsOf(bs: seq<Booking>): set<RegNum> { set b | b in bs :: b.regNum }
  function BookedSpaceIds(bs: seq<Booking>): set<int> { set b | b in bs :: b.spaceId }
  function BookingUserIds(bs: seq<Booking>): set<int> { set b | b in bs :: b.userId }
  function SpaceIds(fs: seq<Space>): set<int> { set f | f in fs :: f.spaceId }
  function FloorNums(fs: seq<Space>): set<int> { set f | f in fs :: f.floorNum }
  function UserIds(us: seq<User>): set<int> { set u | u in us :: u.userId }
  function LogUserIds(ls: seq<LogEntry>): set<int> { set l | l in ls :: l.userId }

  /** The bookings whose regNum is `r` (`select … from Bookings where regNum = r`). */
  function BookingsWithReg(bs: seq<Booking>, r: RegNum): seq<Booking> { Filter(bs, RegIs(r)) }

  /** The bookings held by user `u` (`select … from Bookings where userID = u`). */
  function BookingsOfUser(bs: seq<Booking>, u: int): seq<Booking> { Filter(bs, BookingUserIs(u)) }

  /** The log rows of user `u`. */
  function LogsOfUser(ls: seq<LogEntry>, u: int): seq<LogEntry> { Filter(ls, LogUserIs(u)) }

  /** The Users rows with id `u`. */
  function UserRows(us: seq<User>, u: int): seq<User> { Filter(us, UserIs(u)) }

  /** Some booking reserves space `s` for registration `r`. */
  predicate BookedFor(bs: seq<Booking>, r: RegNum, s: int) {
    exists b :: b in bs && b.regNum == r && b.spaceId == s
  }

  /** Some space currently shows registration `r`. */
  predicate Shows(fs: seq<Space>, r: RegNum) {
    exists i :: 0 <= i < |fs| && fs[i].parkedRegNum == Some(r)
  }

  /** Space `s` shows registration `r`. */
  predicate ShowsAt(fs: seq<Space>, r: RegNum, s: int) {
    exists i :: 0 <= i < |fs| && fs[i].spaceId == s && fs[i].parkedRegNum == Some(r)
  }

  /** At most one active booking per registration number. */
  predicate UniqueRegNums(bs: seq<Booking>) { UniqueKey(bs, RegOf) }

  /** At most one active booking per parking space. */
  predicate UniqueSpaceBookings(bs: seq<Booking>) { UniqueKey(bs, BookedSpaceOf) }

  /** Every occupied space shows a registration that is booked for that very space. */
  predicate OccupancyConsistent(db: Db) {
    forall i :: 0 <= i < |db.floors| && db.floors[i].parkedRegNum.Some? ==>
      BookedFor(db.bookings, db.floors[i].parkedRegNum.value, db.floors[i].spaceId)
  }

  /** The foreign keys of Bookings (to Floors and Users) and of Logs (to Users) resolve. */
  predicate ReferencesResolve(db: Db) {
    && (forall b :: b in db.bookings ==> b.spaceId in SpaceIds(db.floors) && b.userId in UserIds(db.users))
    && (forall l :: l in db.logs ==> l.userId in UserIds(db.users))
  }

  /** Primary keys appear in insertion order and below their auto-increment counter. */
  predicate KeysFresh(db: Db) {
    && Ascending(db.floors, SpaceKey) && Below(db.floors, SpaceKey, db.nextSpaceId)
    && Ascending(db.bookings, BookingKey) && Below(db.bookings, BookingKey, db.nextBookingId)
    && Ascending(db.logs, LogKey) && Below(db.logs, LogKey, db.nextLogId)
    && Ascending(db.users, UserKey) && Below(db.users, UserKey, db.nextUserId)
  }

  /** ASCII lower-casing of one character. */
  function LowerChar(c: char): char {
    if 'A' <= c <= 'Z' then (c as int + 32) as char else c
  }

  /** ASCII lower-casing of a string (Python's `str.lower` restricted to ASCII). */
  function LowerAscii(s: string): string {
    seq(|s|, i requires 0 <= i < |s| => LowerChar(s[i]))
  }

  function NameOf(u: User): string { u.name }
  function EmailKey(u: User): string { LowerAscii(u.email) }

  /** No two users share a name, nor an email up to ASCII case. */
  predicate UsersDistinct(us: seq<User>) {
    UniqueKey(us, NameOf) && UniqueKey(us, EmailKey)
  }

  /** Every invariant of the garage database. */
  predicate Valid(db: Db) {
    && UsersDistinct(db.users)
    && UniqueRegNums(db.bookings)
    && UniqueSpaceBookings(db.bookings)
    && OccupancyConsistent(db)
    && ReferencesResolve(db)
    && KeysFresh(db)
  }

  /**
   * In a valid state the scalar subquery `select … from Bookings where
   * regNum = r` returns at most one row.
   */
  lemma ValidRegSelectsAtMostOne(db: Db, r: RegNum)
    requires Valid(db)
    ensures |BookingsWithReg(db.bookings, r)| <= 1
  {
    var bs := db.bookings;
    forall i, j | 0 <= i < |bs| && 0 <= j < |bs| && RegIs(r)(bs[i]) && RegIs(r)(bs[j])
      ensures i == j
    {
      assert RegOf(bs[i]) == RegOf(bs[j]);
    }
    AtMostOneSelected(bs, RegIs(r));
  }
}

=== FILE: session.dfy ===
/**
 * One client session as a sequence of requests against the database
 * provisioned by `initialize_DB`. With cancellation done the corrected way
 * (`Client.Cancel`), every step keeps the garage invariants, so they hold
 * in every reachable state; with the cancellation as the client writes it
 * (`Client.CancelAsWritten`) a short session reaches a state where they fail.
 */
module Session {
  import opened Tables
  import opened Schema
  import opened Provisioning
  import opened Procedures
  import opened Preservation
  import opened Client

  /** What a client can ask of the garage (project.py:256-445). */
  datatype Command =
    | CreateAccount(name: string, password: string, email: string)
    | DriveIn(regNum: RegNum, spaceId: int)
    | DriveAway(regNum: RegNum)
    | ReserveSpace(userId: int, regNum: RegNum, floor: int, spaceId: int)
    | CancelReservation(userId: int)
    | RemoveAccount(userId: int)

  /** A command together with the server clock at the time it runs. */
  datatype Request = Request(command: Command, now: int)

  /**
   * One request, as one atomic step. A cancellation runs the corrected
   * `Client.Cancel`, not the client's written one. Removing an account
   * whose user holds several bookings fails in `account_removal`'s scalar
   * subquery before anything is written, so the state is left as it was.
   */
  function Step(db: Db, req: Request): (r: Db)
    requires Valid(db)
    ensures Valid(r)
  {
    match req.command
    case CreateAccount(name, password, email) =>
      SignupPreservesValid(db, name, password, email, req.now);
      Signup(db, name, password, email, req.now).1
    case DriveIn(regNum, sID) =>
      OccupancyWritePreservesValid(db, sID, regNum);
      Park(db, regNum, sID).1
    case DriveAway(regNum) =>
      DriveOutPreservesValid(db, regNum, req.now);
      Leave(db, regNum, req.now).1
    case ReserveSpace(uID, regNum, floor, sID) =>
      InsertBookingPreservesValid(db, regNum, sID, uID, floor, req.now);
      Reserve(db, uID, regNum, floor, sID, req.now).1
    case CancelReservation(uID) =>
      CancelPreservesValid(db, uID);
      Cancel(db, uID).1
    case RemoveAccount(uID) =>
      if |BookingsOfUser(db.bookings, uID)| <= 1 then
        AccountRemovalPreservesValid(db, uID);
        AccountRemoval(db, uID)
      else
        db
  }

  /** A sequence of requests, run in order. */
  function Run(db: Db, reqs: seq<Request>): (r: Db)
    requires Valid(db)
    ensures Valid(r)
    decreases |reqs|
  {
    if reqs == [] then db else Run(Step(db, reqs[0]), reqs[1..])
  }

  /**
   * The state a session reaches from the provisioned database: it has at
   * most one booking per registration and per space, every occupied space
   * shows a registration booked for it, and the foreign and primary keys hold.
   */
  function Reachable(reqs: seq<Request>): (r: Db)
    ensures Valid(r)
  {
    InitializeDbValid();
    Run(InitializeDb(), reqs)
  }

  /**
   * A session from the provisioned database: user "u" signs up (user 1),
   * reserves space 1 for car "A" and space 2 for car "B" (both on floor 1),
   * and "B" drives into space 2.
   */
  const TwoReservationsSession := [
    Request(CreateAccount("u", "p", "u@x"), 0),
    Request(ReserveSpace(1, "A", 1, 1), 0),
    Request(ReserveSpace(1, "B", 1, 2), 0),
    Request(DriveIn("B", 2), 0)
  ]

  /** Signing up on an empty Users table always succeeds. */
  lemma FirstSignupStep(db: Db, name: string, password: string, email: string, now: int)
    requires Valid(db) && db.users == []
    ensures Step(db, Request(CreateAccount(name, password, email), now)) ==
      db.(users := [User(db.nextUserId, name, password, email, now)], nextUserId := db.nextUserId + 1)
  {
  }

  /** A reservation of a space on its floor that `insert_booking` admits appends the booking. */
  lemma AdmittedReserveStep(db: Db, uID: int, regNum: RegNum, floor: int, sID: int, now: int)
    requires Valid(db)
    requires SpaceOnFloor(db, sID, floor) && BookingAdmissible(db, regNum, sID, uID, floor)
    ensures Step(db, Request(ReserveSpace(uID, regNum, floor, sID), now)) ==
      db.(bookings := db.bookings + [Booking(db.nextBookingId, regNum, sID, uID, now)],
          nextBookingId := db.nextBookingId + 1)
  {
    var i :| 0 <= i < |db.floors| && db.floors[i].spaceId == sID && db.floors[i].floorNum == floor;
    assert db.floors[i] in db.floors;
  }

  /**
   * The cancellation as written, on a valid state whose only bookings are
   * user 1's "A" on empty space 1 and "B" on space 2 where "B" is parked:
   * it deletes both and leaves "B" shown without a booking, while the
   * corrected cancellation refuses.
   */
  lemma CancelAsWrittenOnTwoReservations(db: Db)
    requires Valid(db) && |db.floors| >= 2
    requires db.bookings == [Booking(1, "A", 1, 1, 0), Booking(2, "B", 2, 1, 0)]
    requires db.floors[0] == Space(1, 1, None) && db.floors[1] == Space(2, 1, Some("B"))
    ensures CancelAsWritten(db, 1).0 == Cancelled
    ensures !OccupancyConsistent(CancelAsWritten(db, 1).1)
    ensures Cancel(db, 1).0 == SpaceInUse
  {
    var bA := Booking(1, "A", 1, 1, 0);
    var bB := Booking(2, "B", 2, 1, 0);
    assert Filter(db.bookings, BookingUserIs(1)) == [bA, bB] by {
      assert db.bookings[1..] == [bB];
      assert db.bookings[1..][1..] == [];
    }
    assert !ShowsAt(db.floors, "A", 1) by {
      assert forall i :: 0 < i < |db.floors| ==> SpaceKey(db.floors[0]) < SpaceKey(db.floors[i]);
    }
    var after := CancelAsWritten(db, 1).1;
    assert after.bookings == [] by {
      FilterDropsAll(db.bookings, BookingUserIsNot(1));
    }
    assert after.floors[1].parkedRegNum == Some("B");
    assert ReservationInUse(db, 1) by {
      assert bB in db.bookings;
      assert ShowsAt(db.floors, "B", 2);
    }
  }

  /** Running a non-empty sequence is one step followed by the rest. */
  lemma RunFirst(db: Db, reqs: seq<Request>)
    requires Valid(db) && reqs != []
    ensures Run(db, reqs) == Run(Step(db, reqs[0]), reqs[1..])
  {
  }

  /** Two admitted reservations by user 1 on the empty spaces 1 and 2 of floor 1. */
  lemma TwoReservationSteps(db: Db)
    requires Valid(db) && db.bookings == [] && db.nextBookingId == 1
    requires exists u :: u in db.users && u.userId == 1
    requires |db.floors| >= 2 && db.floors[0] == Space(1, 1, None) && db.floors[1] == Space(2, 1, None)
    ensures var r := Step(Step(db, Request(ReserveSpace(1, "A", 1, 1), 0)), Request(ReserveSpace(1, "B", 1, 2), 0));
      && r.bookings == [Booking(1, "A", 1, 1, 0), Booking(2, "B", 2, 1, 0)]
      && r.floors == db.floors
  {
    assert SpaceOnFloor(db, 1, 1);
    AdmittedReserveStep(db, 1, "A", 1, 1, 0);
    var d := Step(db, Request(ReserveSpace(1, "A", 1, 1), 0));
    assert d.bookings == [Booking(1, "A", 1, 1, 0)] && d.floors == db.floors;
    assert SpaceOnFloor(d, 2, 1);
    AdmittedReserveStep(d, 1, "B", 1, 2, 0);
  }

  /** Car "B", booked for space 2, drives into it; the trigger lets the write through. */
  lemma DriveInBookedStep(db: Db)
    requires Valid(db)
    requires db.bookings == [Booking(1, "A", 1, 1, 0), Booking(2, "B", 2, 1, 0)]
    requires |db.floors| >= 2 && db.floors[0] == Space(1, 1, None) && db.floors[1] == Space(2, 1, None)
    ensures var r := Step(db, Request(DriveIn("B", 2), 0));
      && r.bookings == db.bookings && |r.floors| == |db.floors|
      && r.floors[0] == Space(1, 1, None) && r.floors[1] == Space(2, 1, Some("B"))
  {
    assert Booking(2, "B", 2, 1, 0) in db.bookings;
  }

  /** The first user to sign up on a database with no users becomes user 1. */
  lemma SignupOnEmptyUsers(db: Db)
    requires Valid(db) && db.users == [] && db.nextUserId == 1
    ensures var r := Step(db, Request(CreateAccount("u", "p", "u@x"), 0));
      && r.bookings == db.bookings && r.floors == db.floors && r.nextBookingId == db.nextBookingId
      && (exists u :: u in r.users && u.userId == 1)
  {
    FirstSignupStep(db, "u", "p", "u@x", 0);
    assert User(1, "u", "p", "u@x", 0) in Step(db, Request(CreateAccount("u", "p", "u@x"), 0)).users;
  }

  /**
   * From any valid state shaped like the provisioned one (no users or
   * bookings yet, spaces 1 and 2 empty on floor 1), the session above ends
   * with user 1's "A" on space 1 and "B" on space 2, "B" parked on space 2.
   */
  lemma TwoReservationsFrom(db: Db)
    requires Valid(db) && db.users == [] && db.bookings == []
    requires db.nextUserId == 1 && db.nextBookingId == 1
    requires |db.floors| >= 2 && db.floors[0] == Space(1, 1, None) && db.floors[1] == Space(2, 1, None)
    ensures var s := Run(db, TwoReservationsSession);
      && Valid(s) && |s.floors| >= 2
      && s.bookings == [Booking(1, "A", 1, 1, 0), Booking(2, "B", 2, 1, 0)]
      && s.floors[0] == Space(1, 1, None) && s.floors[1] == Space(2, 1, Some("B"))
  {
    var reqs := TwoReservationsSession;
    var d1 := Step(db, reqs[0]);
    var d2 := Step(d1, reqs[1]);
    var d3 := Step(d2, reqs[2]);
    RunFirst(db, reqs);
    RunFirst(d1, reqs[1..]);
    RunFirst(d2, reqs[2..]);
    RunFirst(d3, reqs[3..]);
    SignupOnEmptyUsers(db);
    TwoReservationSteps(d1);
    DriveInBookedStep(d3);
  }

  /** The provisioned database has the shape the session above starts from. */
  lemma ProvisionedShape()
    ensures var d := InitializeDb();
      && Valid(d) && d.users == [] && d.bookings == []
      && d.nextUserId == 1 && d.nextBookingId == 1
      && |d.floors| >= 2 && d.floors[0] == Space(1, 1, None) && d.floors[1] == Space(2, 1, None)
  {
    InitializeDbValid();
  }

  /**
   * The cancellation as the client writes it breaks the occupancy
   * invariant in a reachable state: after the session above, user 1's
   * first booking (space 1) is not occupied, so both bookings are deleted
   * and space 2 keeps showing "B" without a booking. The corrected
   * cancellation, which `Step` runs, refuses there.
   */
  lemma AsWrittenCancelBreaksReachable()
    ensures var s := Reachable(TwoReservationsSession);
      && Valid(s)
      && CancelAsWritten(s, 1).0 == Cancelled
      && !OccupancyConsistent(CancelAsWritten(s, 1).1)
      && Cancel(s, 1).0 == SpaceInUse
  {
    ProvisionedShape();
    TwoReservationsFrom(InitializeDb());
    CancelAsWrittenOnTwoReservations(Reachable(TwoReservationsSession));
  }
}

=== FILE: tables.dfy ===
/**
 * Generic relational helpers: an optional (nullable) column value, row
 * selection by a predicate (the `where` clause of `select` and, negated,
 * of `delete`), and key properties of a table held as a sequence of rows.
 */
module Tables {

  /** A nullable column value: `None` is SQL NULL. */
  datatype Option<+T> = None | Some(value: T)

  /** The rows of `s` that satisfy `keep`, in their original order. */
  function Filter<T(==)>(s: seq<T>, keep: T -> bool): (r: seq<T>)
    ensures |r| <= |s|
    ensures forall x | x in r :: x in s && keep(x)
    ensures forall x | x in s && keep(x) :: x in r
  {
    if s == [] then []
    else if keep(s[0]) then [s[0]] + Filter(s[1..], keep)
    else Filter(s[1..], keep)
  }

  /** No two rows of `s` share a key. */
  predicate UniqueKey<T(==), K(==)>(s: seq<T>, key: T -> K) {
    forall i, j :: 0 <= i < |s| && 0 <= j < |s| && key(s[i]) == key(s[j]) ==> i == j
  }

  /** Keys strictly increase along `s` (rows in auto-increment order). */
  predicate Ascending<T(==)>(s: seq<T>, key: T -> int) {
    forall i, j :: 0 <= i < j < |s| ==> key(s[i]) < key(s[j])
  }

  /** Every key of `s` lies below `bound` (the next auto-increment value). */
  predicate Below<T(==)>(s: seq<T>, key: T -> int, bound: int) {
    forall x :: x in s ==> key(x) < bound
  }

  /** A filter that drops nothing is the identity. */
  lemma {:induction false} FilterKeepsAll<T>(s: seq<T>, keep: T -> bool)
    requires forall x :: x in s ==> keep(x)
    ensures Filter(s, keep) == s
  {
    if s != [] {
      assert s[0] in s;
      assert forall x :: x in s[1..] ==> x in s;
      FilterKeepsAll(s[1..], keep);
    }
  }

  /** A filter that keeps nothing selects no row. */
  lemma {:induction false} FilterDropsAll<T>(s: seq<T>, keep: T -> bool)
    requires forall x | x in s :: !keep(x)
    ensures Filter(s, keep) == []
  {
    if s != [] {
      assert s[0] in s;
      assert forall x :: x in s[1..] ==> x in s;
      FilterDropsAll(s[1..], keep);
    }
  }

  /** Filtering twice is filtering once by the stronger condition. */
  lemma {:induction false} FilterOfFilter<T>(s: seq<T>, p: T -> bool, q: T -> bool)
    requires forall x :: x in s && q(x) ==> p(x)
    ensures Filter(Filter(s, p), q) == Filter(s, q)
  {
    if s != [] {
      assert s[0] in s;
      assert forall x :: x in s[1..] ==> x in s;
      FilterOfFilter(s[1..], p, q);
    }
  }

  /** Filtering distributes over appending one row. */
  lemma {:induction false} FilterAppend<T>(s: seq<T>, x: T, keep: T -> bool)
    ensures Filter(s + [x], keep) == Filter(s, keep) + (if keep(x) then [x] else [])
  {
    if s == [] {
      assert [x][1..] == [];
    } else {
      assert (s + [x])[0] == s[0];
      assert (s + [x])[1..] == s[1..] + [x];
      FilterAppend(s[1..], x, keep);
    }
  }

  /** Removing rows keeps the remaining keys distinct. */
  lemma {:induction false} FilterUnique<T, K>(s: seq<T>, keep: T -> bool, key: T -> K)
    requires UniqueKey(s, key)
    ensures UniqueKey(Filter(s, keep), key)
  {
    if s != [] {
      var t := s[1..];
      assert UniqueKey(t, key) by {
        forall i, j | 0 <= i < |t| && 0 <= j < |t| && key(t[i]) == key(t[j])
          ensures i == j
        {
          assert s[i + 1] == t[i] && s[j + 1] == t[j];
        }
      }
      FilterUnique(t, keep, key);
      if keep(s[0]) {
        var r := Filter(s, keep);
        var f := Filter(t, keep);
        assert r == [s[0]] + f;
        forall k | 0 <= k < |f|
          ensures key(f[k]) != key(s[0])
        {
          assert f[k] in f;
          var m :| 0 <= m < |t| && t[m] == f[k];
          assert s[m + 1] == t[m];
        }
        forall i, j | 0 <= i < |r| && 0 <= j < |r| && i != j
          ensures key(r[i]) != key(r[j])
        {
          if i > 0 && j > 0 {
            assert r[i] == f[i - 1] && r[j] == f[j - 1];
          } else if i > 0 {
            assert r[i] == f[i - 1];
          } else {
            assert r[j] == f[j - 1];
          }
        }
      }
    }
  }

  /** Removing rows keeps the remaining keys in increasing order. */
  lemma {:induction false} FilterAscending<T>(s: seq<T>, keep: T -> bool, key: T -> int)
    requires Ascending(s, key)
    ensures Ascending(Filter(s, keep), key)
  {
    if s != [] {
      var t := s[1..];
      assert Ascending(t, key) by {
        forall i, j | 0 <= i < j < |t|
          ensures key(t[i]) < key(t[j])
        {
          assert s[i + 1] == t[i] && s[j + 1] == t[j];
        }
      }
      FilterAscending(t, keep, key);
      if keep(s[0]) {
        var r := Filter(s, keep);
        var f := Filter(t, keep);
        assert r == [s[0]] + f;
        forall k | 0 <= k < |f|
          ensures key(s[0]) < key(f[k])
        {
          assert f[k] in f;
          var m :| 0 <= m < |t| && t[m] == f[k];
          assert s[m + 1] == t[m];
        }
        forall i, j | 0 <= i < j < |r|
          ensures key(r[i]) < key(r[j])
        {
          assert r[j] == f[j - 1];
          if i > 0 {
            assert r[i] == f[i - 1];
          }
        }
      }
    }
  }

  /** Appending a row whose key exceeds every present key keeps the order. */
  lemma AppendAscending<T>(s: seq<T>, x: T, key: T -> int, bound: int)
    requires Ascending(s, key) && Below(s, key, bound) && key(x) == bound
    ensures Ascending(s + [x], key) && Below(s + [x], key, bound + 1)
  {
    var r := s + [x];
    forall i, j | 0 <= i < j < |r|
      ensures key(r[i]) < key(r[j])
    {
      assert r[i] == s[i];
      assert s[i] in s;
      if j < |s| {
        assert r[j] == s[j];
      }
    }
  }

  /** Appending a row whose key is new keeps the keys distinct. */
  lemma AppendUnique<T, K>(s: seq<T>, x: T, key: T -> K)
    requires UniqueKey(s, key)
    requires forall y :: y in s ==> key(y) != key(x)
    ensures UniqueKey(s + [x], key)
  {
    var r := s + [x];
    forall i, j | 0 <= i < |r| && 0 <= j < |r| && i != j
      ensures key(r[i]) != key(r[j])
    {
      if i < |s| && j < |s| {
        assert r[i] == s[i] && r[j] == s[j];
      } else if i < |s| {
        assert r[i] == s[i] && s[i] in s;
      } else {
        assert r[j] == s[j] && s[j] in s;
      }
    }
  }

  /**
   * When at most one row of `s` satisfies `keep` (the situation in which a
   * scalar subquery is well defined), the selection has at most one row.
   */
  lemma {:induction false} AtMostOneSelected<T>(s: seq<T>, keep: T -> bool)
    requires forall i, j :: 0 <= i < |s| && 0 <= j < |s| && keep(s[i]) && keep(s[j]) ==> i == j
    ensures |Filter(s, keep)| <= 1
  {
    if s != [] {
      var t := s[1..];
      forall i, j | 0 <= i < |t| && 0 <= j < |t| && keep(t[i]) && keep(t[j])
        ensures i == j
      {
        assert s[i + 1] == t[i] && s[j + 1] == t[j];
      }
      AtMostOneSelected(t, keep);
      if keep(s[0]) {
        forall m | 0 <= m < |t|
          ensures !keep(t[m])
        {
          assert s[m + 1] == t[m];
        }
        FilterDropsAll(t, keep);
      }
    }
  }
}
